=== FILE: README.md ===
# downtime-monitor: a Dafny model of the polling core

This project models the deterministic core of `monitor.go` in the
downtime-monitor web application. The application stores websites in SQLite.
It starts a goroutine (`runTask`) for each listed site whose ID is not yet
in `websiteIDSet`. Each goroutine probes its site on a ticker and sends a
`models.Website` record over a channel for every probe that gets a response. The model takes those pieces out of their goroutines, timers and I/O
and writes them as pure functions:

- **Uptime formatter**: `formatTimedelta` turns a duration into days, hours
  and minutes and renders `"<h>h <m>m"` or `"<d>d <h>h <m>m"` (modules
  `Timedelta`, and `Decimal` for Go's `%d`). The duration is a natural number
  of seconds. The model proves a parser that reads the text back, which shows
  the text determines the whole minutes.
- **Status classification**: `GetStatusCode` (module `Health`). The HTTP
  exchange is replaced by its outcome, a `Probe`.
- **Poller**: the `runTask` loop becomes a state machine
  (`Armed`/`Stopped`/`Crashed`) driven by a sequence of probe outcomes, one
  per tick (module `Poller`).
- **Seen-set**: the global `websiteIDSet` is a `set<int>`. The model covers
  the insert on form submission and the reconcile loop of the `Index`
  handler, which starts a poller only for IDs not yet in the set (modules
  `Registry` and `Index`).

Go's `int` is modelled as a 64-bit subset type (`Models.Int64`). The one
place where overflow matters is `time.Duration(seconds) * time.Second`; it
wraps explicitly there (`Models.Wrap64`).

Four behaviours of the code shape the model:

- A request that cannot be built, or a transport failure, calls
  `os.Exit(1)` before any record is sent on the result channel (monitor.go:137-155). The whole
  process ends and the failed probe produces no record. The model uses the
  state `Crashed`.
- After reporting a bad status, `runTask` sends on its own unbuffered
  `errCh`, whose only receiver is the `select` of the same goroutine
  (monitor.go:121). The goroutine therefore blocks for good instead of
  returning. The model uses the state `Stopped`: the poller never emits again.
- `ticker.Reset` panics on a non-positive period (monitor.go:125). The
  period is `seconds` × 10^9 wrapped to 64 bits. Two kinds of interval make
  it non-positive: zero or less, and any interval whose product wraps to a
  non-positive value, such as 9223372037 seconds. Either one crashes the
  process right after the first successful probe. Other overflowing
  intervals wrap to an unintended positive period and do not panic.
- IDs are only ever inserted into the seen-set, never removed
  (monitor.go:201-204, 216-224).

The handler treats storage errors the same way every time. `AddSite`
returns ID 0 on each of its error paths (monitor.go:42, 46, 50). The handler
only logs that error and then inserts ID 0 into the seen-set (`Index.AddedId`).
`GetAllSites` returns a nil slice on each of its error paths (monitor.go:61,
71, 77). The reconcile loop then visits no site (`Index.SitesOf`).

## Model

| member | source | states |
|---|---|---|
| Decimal.Format | monitor.go:100 | Go's `%d` on a non-negative int gives a non-empty string of digits, with no leading zero unless the value is 0 |
| Decimal.ParseFormat | monitor.go:100-103 | reading a number back from its `%d` text returns that number and leaves the following text untouched |
| Timedelta.Decompose | monitor.go:96-98 | hours are below 24 and minutes below 60; the day count is zero exactly when the duration is under one day |
| Timedelta.DecomposeReconstructs | monitor.go:94-98 | days·86400 + hours·3600 + minutes·60 is the duration rounded down to a whole minute, so only the sub-minute seconds are dropped |
| Timedelta.FormatTimedelta | monitor.go:95-104 | the text contains a day component (`d`) exactly when the duration is at least one day, and it always ends in `m` |
| Timedelta.ParseFormatTimedelta | monitor.go:99-103 | parsing the rendered text gives back exactly the days, hours and minutes it was made from, in both the short and the long form |
| Timedelta.SameMinutesSameParts | monitor.go:96-98 | durations with the same number of whole minutes get the same days, hours and minutes |
| Timedelta.FormatTimedeltaInjective | monitor.go:95-104 | two durations render to the same text if and only if they have the same number of whole minutes |
| Timedelta.FourDaysAndTwoHours | monitor.go:182-192 | four days plus 123 minutes renders as `"4d 2h 3m"` |
| Health.GetStatusCode | monitor.go:136-163 | a received status is returned unchanged and flagged as an error exactly when it is not 200; a request that cannot be built, or a failed exchange, ends the process with exit status 1 |
| Poller.ResetPeriod | monitor.go:125 | the reset period is `seconds` × 10^9 whenever that fits in 64 bits, and then it is positive exactly when `seconds` is |
| Poller.Record | monitor.go:118 | an emitted record carries the poller's URL, its interval and the probed status code, and every other field is zero |
| Poller.Tick | monitor.go:116-125 | one tick emits a record exactly when a response arrived; the poller stays armed only after a 200 with a valid reset period, and it stops exactly on a non-200 status |
| Poller.Run | monitor.go:107-133 | the records emitted are, in order, the records for a prefix of the probes, each of them a received response; a poller still armed has consumed every probe |
| Poller.FirstFailure | monitor.go:119-123 | the index of the first probe that is not a 200 response: every earlier probe is healthy |
| Poller.RunStopsAtFirstFailure | monitor.go:114-130 | with a valid interval, exactly the probes up to the first failure are emitted, including that failure when a response was received; the final state is armed, stopped or crashed as that failure dictates |
| Poller.AllHealthyEmitsEveryTick | monitor.go:114-125 | a site that always answers 200 gets one 200 record per tick and its poller stays armed |
| Poller.RunAppend | monitor.go:119-123 | running two batches of ticks equals running the first, then the second only if the poller is still armed, so nothing is emitted after a failure |
| Poller.BrokenIntervalCrashesAfterFirstSuccess | monitor.go:124-125 | with a non-positive reset period, the first healthy tick emits its record and then crashes the process |
| Poller.OverflowingIntervalPanics | monitor.go:125 | an interval of 9223372037 seconds overflows to a non-positive period, so the reset panics |
| Registry.Insert | monitor.go:201-204 | after an insert the ID is present and nothing else was added; inserting a present ID leaves the set unchanged |
| Registry.ReconcileFrom | monitor.go:216-224 | the loop from a given position adds every remaining ID to the set, and starts only positions it visits |
| Registry.ReconcileFromIncreasing | monitor.go:216-224 | positions are started in the order the loop visits them |
| Registry.ReconcileFromStartRule | monitor.go:217-221 | a position is started exactly when its ID is in neither the set the loop began with nor an earlier visited position |
| Registry.Reconcile | monitor.go:216-224 | after the loop every listed ID is in the set and the set only grew; a site is started, in list order, exactly when its ID was absent from the set when the loop reached it; a list of already-seen IDs starts nothing |
| Registry.ReconcileStartsEachIdOnce | monitor.go:216-224 | one pass never starts two pollers for the same ID, even when the ID is listed twice; it never starts one for an already-seen ID; and it records every ID it started |
| Registry.ReconcileFromAllSeen | monitor.go:216-224 | a pass over sites whose IDs are all already seen starts nothing and leaves the set as it was |
| Registry.ReconcileAgainStartsNothing | monitor.go:214-224 | repeating the reconcile pass over the same list starts nothing and changes nothing |
| Registry.ReconcileTwiceDisjoint | monitor.go:214-224 | two successive passes, over any lists, never start pollers for a common ID |
| Index.PostedWebsite | monitor.go:179-194 | a submitted site is stored with status 200, uptime `"4d 2h 3m"`, no ID, and the submitted name, URL, date and interval |
| Index.AfterPost | monitor.go:172-205 | a form submission adds the new site's ID (0 if the insert failed) to the seen-set; any other request leaves the set unchanged |
| Index.HandleIndex | monitor.go:166-227 | the handler as written: a request for another path or with an unparsable form changes nothing and starts nothing; otherwise the reconcile pass runs against the set as the form branch left it |
| Index.PostedSiteNeverPolled | monitor.go:197-224 | as written, the site a submission just stored is never started by the same request, even when its ID was unseen |
| Index.PostedSiteNeverPolledExample | monitor.go:197-224 | concretely: with an empty set and a site stored and listed with ID 7, the pass starts nothing |
| Index.PostedSiteStaysUnpolled | monitor.go:201-224 | the ID a submission returned stays in the set, so no later request of the same process starts a poller for it, whatever that request lists |
| Index.RestartPollsPostedSite | monitor.go:208-221 | once a restart has emptied the set (it starts empty, monitor.go:20), the first listing request starts the stored site (ID 7) |
| Index.HandleIndexCorrected | monitor.go:166-227 | corrected handler: the early returns are kept, but the form branch leaves the claim to the loop, so the loop's start rule applies to the original set |
| Index.PostedSitePolledCorrected | monitor.go:216-224 | with the correction, a newly stored site with an unseen ID is started at its first place in the listing |

## Left out

- The HTTP request itself: the method, the headers and the 10-second client timeout (monitor.go:137-156). Only its outcome is modelled, as `Health.Probe`.
- What `os.Exit(1)` does to the rest of the process. Other pollers and the server simply stop existing. The model records only `Crashed` for the poller that caused it.
- Goroutines, `sync.WaitGroup` and the channels. These are concurrency, not sequential logic. As written, `siteCh` is never closed, so the handler's `range siteCh` never ends. A stopped poller never calls `wg.Done`. The model has neither.
- Ticker timing: these are wall-clock behaviour, and the model counts ticks, not seconds.
  - The first tick comes one second after start.
  - Each later tick comes `seconds` after `ticker.Reset` runs. That is after the probe and the blocking send (monitor.go:117-125), so the schedule drifts by the probe's latency.
- Printing and logging: these are output only and do not feed back into any state the model tracks.
  - `log.Printf` at monitor.go:180 and 199.
  - `fmt.Println` of each started site's name at monitor.go:222.
  - `fmt.Println` of every record received at monitor.go:228-230.
  - The dump of seen IDs at monitor.go:232-234, which is never reached because the range over `siteCh` never ends.
- Unsynchronised access to `websiteIDSet` from concurrent requests and goroutines. That is a data race, and a sequential model cannot express it.
- SQLite access (`AddSite`, `GetAllSites`, `Delete`, `OpenDB`): database I/O. Their results enter the model as `Index.AddOutcome` and `Index.Listing`.
- HTML templating, routing, form parsing (including `strconv.ParseInt` of the interval), server start-up and `web/static/js/script.js`: I/O glue.
- `DateAdded`: the date formatting uses the layout `"2006-01-02 15:03:04"`, which prints the hour twice (24-hour, then 12-hour) and no seconds. Time formatting is not modelled; the date is a parameter of `Index.PostedWebsite`.
- Timedelta.FormatTimedelta: takes whole non-negative seconds. It does not model the `float64` path of `t.Seconds()`, the rounding it may introduce for very long durations, or negative durations.
- Index.PostedWebsite: assumes the four calendar days added by `AddDate` are exactly 96 hours. A daylight-saving change in that window makes the real delta one hour longer or shorter.
- Registry: there is no release or cancellation, because the code never removes an ID or stops a poller from outside.

## Findings

| source | as written | input that shows it | evidently intended | confidence | as-written member | corrected member |
|---|---|---|---|---|---|---|
| monitor.go:201-204 | a form submission inserts the new site's ID into `websiteIDSet` before the reconcile loop of the same request runs, so the loop finds the ID seen and starts no poller; nothing later in the same process starts one either. Only after a restart, when the set is empty again, does the first request to `/` poll the site | empty set; `AddSite` returns ID 7; the listing holds that site with ID 7 | a newly added site is polled | medium, not executed | `Index.HandleIndex`, `Index.PostedSiteNeverPolled`, `Index.PostedSiteStaysUnpolled` | `Index.HandleIndexCorrected`, `Index.PostedSitePolledCorrected` |

=== FILE: decimal.dfy ===
/** Go's `%d` verb on a non-negative integer, and the parser that inverts it. */
module Decimal {

  import opened Options

  predicate IsDigit(c: char) {
    '0' <= c <= '9'
  }

  predicate AllDigits(s: string) {
    forall i :: 0 <= i < |s| ==> IsDigit(s[i])
  }

  function DigitChar(d: nat): (c: char)
    requires d < 10
    ensures IsDigit(c) && DigitValue(c) == d
  {
    (('0' as int) + d) as char
  }

  function DigitValue(c: char): nat
    requires IsDigit(c)
  {
    c as int - '0' as int
  }

  /** The decimal rendering of `n`: digits only, no sign, and no leading zero
      unless `n` is zero itself. */
  function Format(n: nat): (s: string)
    ensures |s| > 0 && AllDigits(s)
    ensures |s| > 1 ==> s[0] != '0'
    decreases n
  {
    if n < 10 then [DigitChar(n)] else Format(n / 10) + [DigitChar(n % 10)]
  }

  /** The number a string of decimal digits denotes. */
  function Value(s: string): nat
    requires AllDigits(s)
  {
    if |s| == 0 then 0 else Value(s[..|s| - 1]) * 10 + DigitValue(s[|s| - 1])
  }

  /** Splits off the longest prefix of decimal digits. */
  function SplitDigits(s: string): (r: (string, string))
    ensures r.0 + r.1 == s
    ensures AllDigits(r.0)
    ensures |r.1| > 0 ==> !IsDigit(r.1[0])
  {
    if |s| > 0 && IsDigit(s[0]) then
      var rest := SplitDigits(s[1..]);
      ([s[0]] + rest.0, rest.1)
    else
      ([], s)
  }

  /** Reads a decimal number at the start of `s`, returning it with the text
      that follows; fails when `s` does not start with a digit. */
  function Parse(s: string): Option<(nat, string)> {
    var split := SplitDigits(s);
    if |split.0| == 0 then None else Some((Value(split.0), split.1))
  }

  /** What may follow a number without being read as more of its digits. */
  predicate Delimited(rest: string) {
    |rest| == 0 || !IsDigit(rest[0])
  }

  lemma {:induction false} ValueOfFormat(n: nat)
    ensures Value(Format(n)) == n
    decreases n
  {
    var s := Format(n);
    if n >= 10 {
      ValueOfFormat(n / 10);
      assert s[..|s| - 1] == Format(n / 10);
    }
  }

  /** A digit string followed by a delimiter splits exactly there. */
  lemma {:induction false} SplitConcat(digits: string, rest: string)
    requires AllDigits(digits) && Delimited(rest)
    ensures SplitDigits(digits + rest) == (digits, rest)
    decreases |digits|
  {
    if |digits| > 0 {
      assert (digits + rest)[1..] == digits[1..] + rest;
      SplitConcat(digits[1..], rest);
      assert [digits[0]] + digits[1..] == digits;
    } else {
      assert digits + rest == rest;
    }
  }

  /** Parsing undoes formatting, and leaves the delimiter and everything
      after it untouched. */
  lemma ParseFormat(n: nat, rest: string)
    requires Delimited(rest)
    ensures Parse(Format(n) + rest) == Some((n, rest))
  {
    SplitConcat(Format(n), rest);
    ValueOfFormat(n);
  }
}

=== FILE: health.dfy ===
/** `GetStatusCode` of monitor.go: one probe of a URL, classified. The HTTP
    exchange itself is not modelled; its outcome is the input. */
module Health {

  import opened Models

  /** `http.StatusOK`. */
  const StatusOK: Int64 := 200

  /** The exit status passed to `os.Exit` when a probe cannot be made. */
  const ExitFailure: int := 1

  /** What happened when the probe was attempted: the request could not be
      built (a malformed URL), the exchange failed (refused connection, DNS
      failure, the 10-second client timeout), or a response arrived. */
  datatype Probe = RequestInvalid | TransportFailure | Received(status: Int64)

  /** What `GetStatusCode` does: return a status code with or without an
      error, or end the whole process. */
  datatype StatusReply = Reply(code: Int64, failed: bool) | Exit(exitCode: int)

  /** A probe that `GetStatusCode` reports without an error. */
  predicate Healthy(p: Probe) {
    p == Received(StatusOK)
  }

  function GetStatusCode(p: Probe): (r: StatusReply)
    ensures r.Exit? <==> !p.Received?
    ensures r.Exit? ==> r.exitCode == ExitFailure
    ensures p.Received? ==> r.Reply? && r.code == p.status
    ensures r.Reply? ==> (r.failed <==> r.code != StatusOK)
    ensures r == Reply(StatusOK, false) <==> Healthy(p)
  {
    match p
    case RequestInvalid => Exit(ExitFailure)
    case TransportFailure => Exit(ExitFailure)
    case Received(status) =>
      if status != StatusOK then Reply(status, true) else Reply(status, false)
  }
}

=== FILE: index.dfy ===
/** The `Index` handler of monitor.go, reduced to what it does to the seen-set:
    an optional form submission that stores a new site and records its ID,
    then one reconcile pass over the stored sites. A request for another path,
    or a submission whose form cannot be parsed, returns before either. */
module Index {

  import opened Models
  import Timedelta
  import Health
  import Registry

  /** What `AddSite` returned for a form submission. */
  datatype AddOutcome = Added(id: Int64) | AddFailed

  /** The request as the handler distinguishes it: a path other than `/`, a
      POST whose form does not parse, any other method on `/`, or a POST on
      `/` whose site `AddSite` tried to store. */
  datatype Request = OtherPath | UnparsableForm | Fetch | Submit(added: AddOutcome)

  /** The requests that reach the reconcile loop. */
  predicate ReachesLoop(req: Request) {
    req.Fetch? || req.Submit?
  }

  /** What `GetAllSites` returned. */
  datatype Listing = Listed(sites: seq<Website>) | ListFailed

  /** The ID the handler carries on with after `AddSite`: on failure the
      function returns 0 and the handler only logs the error. */
  function AddedId(a: AddOutcome): Int64 {
    match a
    case Added(id) => id
    case AddFailed => 0
  }

  /** The sites the loop ranges over: a failed listing leaves a nil slice. */
  function SitesOf(l: Listing): seq<Website> {
    match l
    case Listed(sites) => sites
    case ListFailed => []
  }

  /** The fixed delta the handler formats as every new site's uptime:
      four days plus 123 minutes. */
  const PlaceholderDelta: nat := 4 * Timedelta.SecondsPerDay + 123 * Timedelta.SecondsPerMinute

  /** The record a form submission stores: status 200, the placeholder
      uptime, and no ID yet. */
  function PostedWebsite(name: string, url: string, dateAdded: string, interval: Int64): (w: Website)
    ensures w.uptime == "4d 2h 3m"
    ensures w.statusCode == Health.StatusOK
    ensures w.id == 0
    ensures w.name == name && w.url == url && w.dateAdded == dateAdded && w.interval == interval
  {
    Timedelta.FourDaysAndTwoHours();
    Website(0, name, url, Health.StatusOK, dateAdded, Timedelta.FormatTimedelta(PlaceholderDelta), interval)
  }

  /** The seen-set after the form branch of the handler, as the source has it:
      a submission inserts the new site's ID. */
  function AfterPost(seen: set<int>, req: Request): (r: set<int>)
    ensures req.Submit? ==> r == seen + {AddedId(req.added)}
    ensures !req.Submit? ==> r == seen
  {
    match req
    case Submit(a) => Registry.Insert(seen, AddedId(a))
    case _ => seen
  }

  /** The handler as written: the form branch inserts the new ID, then the
      loop reconciles against the enlarged set. Because the stored site is
      listed with that same ID, the loop finds it already seen and starts no
      poller for it; the ID stays in the set, so no later request of the same
      process starts one either. */
  function HandleIndex(seen: set<int>, req: Request, listing: Listing): (r: Registry.Reconciled)
    ensures !ReachesLoop(req) ==> r == Registry.Reconciled(seen, [])
    ensures ReachesLoop(req) ==> var sites := SitesOf(listing);
      && r.seen == AfterPost(seen, req) + Registry.IdsBetween(sites, 0, |sites|)
      && (forall j :: 0 <= j < |sites| ==>
            (j in r.started <==> sites[j].id !in Registry.SeenBefore(AfterPost(seen, req), sites, j)))
  {
    if ReachesLoop(req) then Registry.Reconcile(AfterPost(seen, req), SitesOf(listing))
    else Registry.Reconciled(seen, [])
  }

  /** The request that stores a site does not poll it, even when its ID was
      never seen before. */
  lemma PostedSiteNeverPolled(seen: set<int>, id: Int64, sites: seq<Website>, j: nat)
    requires id !in seen
    requires j < |sites| && sites[j].id == id
    ensures j !in HandleIndex(seen, Submit(Added(id)), Listed(sites)).started
  {
  }

  /** A concrete instance: an empty seen-set, a site stored with ID 7 and
      listed alone; the pass starts nothing. */
  lemma PostedSiteNeverPolledExample()
    ensures HandleIndex({}, Submit(Added(7)), Listed([Website(7, "a", "http://a", 200, "", "", 5)])).started == []
  {
  }

  /** The ID a submission returned stays seen, so no later request of the same
      process starts a poller for it, whatever it lists. */
  lemma PostedSiteStaysUnpolled(seen: set<int>, id: Int64, sites: seq<Website>, req: Request, later: Listing)
    ensures var after := HandleIndex(seen, Submit(Added(id)), Listed(sites)).seen;
      forall j :: 0 <= j < |SitesOf(later)| && SitesOf(later)[j].id == id ==>
        j !in HandleIndex(after, req, later).started
  {
  }

  /** After a restart the set is empty again: the first listing request then
      starts a poller for the stored site. */
  lemma RestartPollsPostedSite()
    ensures HandleIndex({}, Fetch, Listed([Website(7, "a", "http://a", 200, "", "", 5)])).started == [0]
  {
  }

  /** The handler with the form branch leaving the claim to the loop: the
      stored site is then started by the same pass that lists it. */
  function HandleIndexCorrected(seen: set<int>, req: Request, listing: Listing): (r: Registry.Reconciled)
    ensures !ReachesLoop(req) ==> r == Registry.Reconciled(seen, [])
    ensures ReachesLoop(req) ==> var sites := SitesOf(listing);
      && r.seen == seen + Registry.IdsBetween(sites, 0, |sites|)
      && (forall j :: 0 <= j < |sites| ==>
            (j in r.started <==> sites[j].id !in Registry.SeenBefore(seen, sites, j)))
  {
    if ReachesLoop(req) then Registry.Reconcile(seen, SitesOf(listing))
    else Registry.Reconciled(seen, [])
  }

  /** With the correction, a newly stored site whose ID was never seen is
      started at its first place in the listing. */
  lemma PostedSitePolledCorrected(seen: set<int>, id: Int64, sites: seq<Website>, j: nat)
    requires id !in seen
    requires j < |sites| && sites[j].id == id
    requires forall k :: 0 <= k < j ==> sites[k].id != id
    ensures j in HandleIndexCorrected(seen, Submit(Added(id)), Listed(sites)).started
  {
  }
}

=== FILE: models.dfy ===
/** Go's machine integers and the `Website` record of internal/models/models.go. */
module Models {

  const MinInt64: int := -0x8000_0000_0000_0000
  const MaxInt64: int := 0x7fff_ffff_ffff_ffff
  const TwoTo64: int := 0x1_0000_0000_0000_0000

  /** Go's `int` on a 64-bit platform (also the representation of `time.Duration`). */
  type Int64 = x: int | MinInt64 <= x <= MaxInt64

  /** Two's-complement wrap-around of an exact result into 64 bits, which is
      what Go's signed integer arithmetic does on overflow. */
  function Wrap64(x: int): (r: Int64)
    ensures (x - r) % TwoTo64 == 0
    ensures MinInt64 <= x <= MaxInt64 ==> r == x
  {
    (x - MinInt64) % TwoTo64 + MinInt64
  }

  /** One monitored site, as stored in the `websites` table and as sent over
      the result channel by a poller. */
  datatype Website = Website(
    id: Int64,
    name: string,
    url: string,
    statusCode: Int64,
    dateAdded: string,
    uptime: string,
    interval: Int64)

  /** Go's zero value `models.Website{}`. */
  const ZeroWebsite: Website := Website(0, "", "", 0, "", "", 0)
}

=== FILE: options.dfy ===
/** The optional value used by the parsers of the model, failure-compatible
    so that `:-` can chain them. */
module Options {

  datatype Option<+T> = None | Some(value: T) {

    predicate IsFailure() {
      None?
    }

    function PropagateFailure<U>(): Option<U>
      requires None?
    {
      None
    }

    function Extract(): T
      requires Some?
    {
      value
    }
  }
}

=== FILE: poller.dfy ===
/** `runTask` of monitor.go with the ticker, the channels and the wait group
    taken away: a poller consumes one probe outcome per tick and emits one
    `Website` record per received response. */
module Poller {

  import opened Models
  import opened Health

  /** `time.Second`, in nanoseconds. */
  const NanosPerSecond: int := 1_000_000_000

  /** The largest interval, in seconds, whose duration fits in 64 bits. */
  const MaxExactSeconds: int := MaxInt64 / NanosPerSecond

  /** Where a poller is after a tick: waiting for the next tick, stuck for
      good after reporting a failure (its goroutine blocks forever sending on
      its own unbuffered error channel, so no further tick is served), or gone
      with the whole process (`os.Exit` in `GetStatusCode`, or a panic in
      `ticker.Reset`). */
  datatype PollerState = Armed | Stopped | Crashed

  /** What a run of ticks sends on the result channel, and where it leaves
      the poller. */
  datatype Trace = Trace(emitted: seq<Website>, final: PollerState)

  /** The period given to `ticker.Reset`: `time.Duration(seconds) * time.Second`,
      a 64-bit product that wraps on overflow. */
  function ResetPeriod(seconds: Int64): (d: Int64)
    ensures -MaxExactSeconds <= seconds <= MaxExactSeconds ==> d == seconds * NanosPerSecond
    ensures -MaxExactSeconds <= seconds <= MaxExactSeconds ==> (d > 0 <==> seconds > 0)
  {
    Wrap64(seconds * NanosPerSecond)
  }

  /** `ticker.Reset` panics on a period that is not positive. */
  predicate ResetPanics(seconds: Int64) {
    ResetPeriod(seconds) <= 0
  }

  /** The record a tick sends: the probed status code, the poller's URL and
      interval, and every other field left at its zero value. */
  function Record(url: string, seconds: Int64, code: Int64): (w: Website)
    ensures w.url == url && w.interval == seconds && w.statusCode == code
    ensures w.(url := "", interval := 0, statusCode := 0) == ZeroWebsite
  {
    Website(0, "", url, code, "", "", seconds)
  }

  /** One tick of an armed poller. */
  function Tick(url: string, seconds: Int64, p: Probe): (t: Trace)
    ensures |t.emitted| == (if p.Received? then 1 else 0)
    ensures p.Received? ==> t.emitted[0] == Record(url, seconds, p.status)
    ensures t.final == Armed <==> Healthy(p) && !ResetPanics(seconds)
    ensures t.final == Stopped <==> p.Received? && !Healthy(p)
  {
    match GetStatusCode(p)
    case Exit(_) => Trace([], Crashed)
    case Reply(code, failed) =>
      var w := Record(url, seconds, code);
      if failed then Trace([w], Stopped)
      else if ResetPanics(seconds) then Trace([w], Crashed)
      else Trace([w], Armed)
  }

  /** An armed poller fed `probes`, one per tick, until it leaves `Armed`
      or the probes run out. */
  function Run(url: string, seconds: Int64, probes: seq<Probe>): (t: Trace)
    ensures |t.emitted| <= |probes|
    ensures forall i :: 0 <= i < |t.emitted| ==>
      probes[i].Received? && t.emitted[i] == Record(url, seconds, probes[i].status)
    ensures t.final == Armed ==> |t.emitted| == |probes|
    decreases |probes|
  {
    if |probes| == 0 then
      Trace([], Armed)
    else
      var first := Tick(url, seconds, probes[0]);
      if first.final != Armed then
        first
      else
        var rest := Run(url, seconds, probes[1..]);
        Trace(first.emitted + rest.emitted, rest.final)
  }

  /** The index of the first probe that is not a 200 response, or the
      length of `probes` when there is none. */
  function FirstFailure(probes: seq<Probe>): (k: nat)
    ensures k <= |probes|
    ensures forall i :: 0 <= i < k ==> Healthy(probes[i])
    ensures k < |probes| ==> !Healthy(probes[k])
    decreases |probes|
  {
    if |probes| == 0 then 0
    else if !Healthy(probes[0]) then 0
    else 1 + FirstFailure(probes[1..])
  }

  /** With a valid interval the poller emits one record for every probe up to
      the first failure, plus one for that failure when a response was
      received; it stays armed only if no failure occurs, stops on a bad status
      and crashes on a probe that could not be made. */
  lemma {:induction false} RunStopsAtFirstFailure(url: string, seconds: Int64, probes: seq<Probe>)
    requires !ResetPanics(seconds)
    ensures var k := FirstFailure(probes);
      var t := Run(url, seconds, probes);
      && |t.emitted| == (if k < |probes| && probes[k].Received? then k + 1 else k)
      && (forall i :: 0 <= i < |t.emitted| ==> t.emitted[i] == Record(url, seconds, probes[i].status))
      && t.final == (if k == |probes| then Armed
                     else if probes[k].Received? then Stopped
                     else Crashed)
    decreases |probes|
  {
    if |probes| > 0 && Healthy(probes[0]) {
      RunStopsAtFirstFailure(url, seconds, probes[1..]);
    }
  }

  /** A site that always answers 200 gets one record per tick, all 200. */
  lemma AllHealthyEmitsEveryTick(url: string, seconds: Int64, probes: seq<Probe>)
    requires !ResetPanics(seconds)
    requires forall i :: 0 <= i < |probes| ==> Healthy(probes[i])
    ensures Run(url, seconds, probes) == Trace(
      seq(|probes|, i requires 0 <= i < |probes| => Record(url, seconds, StatusOK)), Armed)
  {
  }

  /** Running two batches of ticks is running the first and, only if the
      poller is still armed, the second. In particular nothing is ever
      emitted after the poller has left `Armed`. */
  lemma {:induction false} RunAppend(url: string, seconds: Int64, first: seq<Probe>, second: seq<Probe>)
    ensures var a := Run(url, seconds, first);
      Run(url, seconds, first + second) ==
        if a.final == Armed then
          var b := Run(url, seconds, second);
          Trace(a.emitted + b.emitted, b.final)
        else a
    decreases |first|
  {
    if |first| == 0 {
      assert first + second == second;
    } else {
      var whole := first + second;
      assert whole[0] == first[0];
      assert whole[1..] == first[1..] + second;
      var t := Tick(url, seconds, first[0]);
      if t.final == Armed {
        RunAppend(url, seconds, first[1..], second);
        var a := Run(url, seconds, first[1..]);
        var b := Run(url, seconds, second);
        if a.final == Armed {
          assert t.emitted + (a.emitted + b.emitted) == (t.emitted + a.emitted) + b.emitted;
        }
      }
    }
  }

  /** An interval of zero or less, or one so large that the duration
      overflows to a non-positive value, makes the first successful tick
      crash the process right after it emits its record. */
  lemma BrokenIntervalCrashesAfterFirstSuccess(url: string, seconds: Int64, probes: seq<Probe>)
    requires ResetPanics(seconds)
    requires |probes| > 0 && Healthy(probes[0])
    ensures Run(url, seconds, probes) == Trace([Record(url, seconds, StatusOK)], Crashed)
  {
  }

  /** An interval of 9223372037 seconds overflows `time.Duration` to a
      negative period. */
  lemma OverflowingIntervalPanics()
    ensures ResetPanics(MaxExactSeconds + 1)
  {
  }
}

=== FILE: registry.dfy ===
/** The process-wide `websiteIDSet` of monitor.go: the IDs the handler has
    marked as seen, namely those it started a poller for and every ID a form
    submission returned. IDs are only ever added to it. */
module Registry {

  import opened Models

  /** The seen-set after a reconcile pass, and the positions in the site list
      whose poller the pass started, in the order they were started. */
  datatype Reconciled = Reconciled(seen: set<int>, started: seq<nat>)

  /** The IDs of `sites[lo..hi]`. */
  function IdsBetween(sites: seq<Website>, lo: nat, hi: nat): set<int>
    requires lo <= hi <= |sites|
  {
    set k | lo <= k < hi :: sites[k].id
  }

  /** Peeling the first site off a range of IDs. */
  lemma IdsBetweenSplit(sites: seq<Website>, lo: nat, hi: nat)
    requires lo < hi <= |sites|
    ensures IdsBetween(sites, lo, hi) == {sites[lo].id} + IdsBetween(sites, lo + 1, hi)
  {
  }

  /** The seen-set as the loop finds it on reaching position `j`. */
  function SeenBefore(seen: set<int>, sites: seq<Website>, j: nat): set<int>
    requires j <= |sites|
  {
    seen + IdsBetween(sites, 0, j)
  }

  predicate Increasing(xs: seq<nat>) {
    forall a, b :: 0 <= a < b < |xs| ==> xs[a] < xs[b]
  }

  /** The insertion a successful form submission makes: add `id` unless it is
      already present. */
  function Insert(seen: set<int>, id: int): (r: set<int>)
    ensures id in r && seen <= r
    ensures r - seen <= {id}
    ensures id in seen ==> r == seen
  {
    if id !in seen then seen + {id} else seen
  }

  /** The loop over the listed sites from position `i` on. */
  function ReconcileFrom(seen: set<int>, sites: seq<Website>, i: nat): (r: Reconciled)
    requires i <= |sites|
    ensures r.seen == seen + IdsBetween(sites, i, |sites|)
    ensures forall n :: 0 <= n < |r.started| ==> i <= r.started[n] < |sites|
    decreases |sites| - i
  {
    if i == |sites| then
      Reconciled(seen, [])
    else
      var id := sites[i].id;
      IdsBetweenSplit(sites, i, |sites|);
      if id in seen then
        ReconcileFrom(seen, sites, i + 1)
      else
        var rest := ReconcileFrom(seen + {id}, sites, i + 1);
        Reconciled(rest.seen, [i] + rest.started)
  }

  /** Positions are started in the order the loop visits them. */
  lemma {:induction false} ReconcileFromIncreasing(seen: set<int>, sites: seq<Website>, i: nat)
    requires i <= |sites|
    ensures Increasing(ReconcileFrom(seen, sites, i).started)
    decreases |sites| - i
  {
    if i < |sites| {
      var id := sites[i].id;
      if id in seen {
        ReconcileFromIncreasing(seen, sites, i + 1);
      } else {
        ReconcileFromIncreasing(seen + {id}, sites, i + 1);
      }
    }
  }

  /** A position is started exactly when its ID is neither in the set the
      loop began with nor among the IDs it visited before. */
  lemma {:induction false} ReconcileFromStartRule(seen: set<int>, sites: seq<Website>, i: nat, j: nat)
    requires i <= j < |sites|
    ensures j in ReconcileFrom(seen, sites, i).started
      <==> sites[j].id !in seen + IdsBetween(sites, i, j)
    decreases |sites| - i
  {
    var id := sites[i].id;
    if i < j {
      IdsBetweenSplit(sites, i, j);
    }
    if id in seen {
      if i < j {
        ReconcileFromStartRule(seen, sites, i + 1, j);
      } else {
        assert i !in ReconcileFrom(seen, sites, i + 1).started;
      }
    } else {
      if i < j {
        ReconcileFromStartRule(seen + {id}, sites, i + 1, j);
        assert j != i;
      }
    }
  }

  /** A pass over sites whose IDs are all seen starts nothing. */
  lemma {:induction false} ReconcileFromAllSeen(seen: set<int>, sites: seq<Website>, i: nat)
    requires i <= |sites|
    ensures IdsBetween(sites, i, |sites|) <= seen ==> ReconcileFrom(seen, sites, i).started == []
    decreases |sites| - i
  {
    if i < |sites| && IdsBetween(sites, i, |sites|) <= seen {
      IdsBetweenSplit(sites, i, |sites|);
      ReconcileFromAllSeen(seen, sites, i + 1);
    }
  }

  /** The loop of the index handler: visit the listed sites in order, and
      for each whose ID is not yet seen, mark it seen and start a poller. */
  function Reconcile(seen: set<int>, sites: seq<Website>): (r: Reconciled)
    ensures r.seen == seen + IdsBetween(sites, 0, |sites|)
    ensures Increasing(r.started)
    ensures forall n :: 0 <= n < |r.started| ==> r.started[n] < |sites|
    ensures forall j :: 0 <= j < |sites| ==>
      (j in r.started <==> sites[j].id !in SeenBefore(seen, sites, j))
    ensures IdsBetween(sites, 0, |sites|) <= seen ==> r == Reconciled(seen, [])
  {
    ReconcileFromIncreasing(seen, sites, 0);
    assert forall j :: 0 <= j < |sites| ==>
      (j in ReconcileFrom(seen, sites, 0).started <==> sites[j].id !in SeenBefore(seen, sites, j)) by {
      forall j | 0 <= j < |sites| {
        ReconcileFromStartRule(seen, sites, 0, j);
      }
    }
    ReconcileFromAllSeen(seen, sites, 0);
    ReconcileFrom(seen, sites, 0)
  }

  /** The IDs whose pollers a pass started. */
  function StartedIds(sites: seq<Website>, r: Reconciled): set<int>
    requires forall n :: 0 <= n < |r.started| ==> r.started[n] < |sites|
  {
    set n | 0 <= n < |r.started| :: sites[r.started[n]].id
  }

  /** One pass never starts two pollers for the same ID, never starts one
      for an ID already seen, and records every ID it started. */
  lemma ReconcileStartsEachIdOnce(seen: set<int>, sites: seq<Website>)
    ensures var r := Reconcile(seen, sites);
      && (forall a, b :: 0 <= a < b < |r.started| ==> sites[r.started[a]].id != sites[r.started[b]].id)
      && StartedIds(sites, r) !! seen
      && StartedIds(sites, r) <= r.seen
  {
  }

  /** A second pass over the same list starts nothing and changes nothing. */
  lemma ReconcileAgainStartsNothing(seen: set<int>, sites: seq<Website>)
    ensures var once := Reconcile(seen, sites);
      Reconcile(once.seen, sites) == Reconciled(once.seen, [])
  {
  }

  /** Two passes, over any two lists, never start pollers for a common ID:
      the second only starts IDs the first left unseen. */
  lemma ReconcileTwiceDisjoint(seen: set<int>, first: seq<Website>, second: seq<Website>)
    ensures var a := Reconcile(seen, first);
      var b := Reconcile(a.seen, second);
      StartedIds(first, a) !! StartedIds(second, b)
  {
  }
}

=== FILE: timedelta.dfy ===
/** `formatTimedelta` of monitor.go: a duration rendered as days, hours and
    minutes. The duration is a whole, non-negative number of seconds. */
module Timedelta {

  import opened Options
  import Decimal

  const SecondsPerMinute: nat := 60
  const SecondsPerHour: nat := 3600
  const SecondsPerDay: nat := 86400

  /** The three numbers the formatter prints. */
  datatype Parts = Parts(days: nat, hours: nat, minutes: nat)

  /** The seconds a `Parts` value stands for. */
  function Seconds(p: Parts): nat {
    p.days * SecondsPerDay + p.hours * SecondsPerHour + p.minutes * SecondsPerMinute
  }

  /** Whole days, hours into the day and minutes into the hour, computed as the
      source computes them: three separate truncating divisions, the last two
      reduced modulo 24 and 60. */
  function Decompose(s: nat): (p: Parts)
    ensures p.hours < 24 && p.minutes < 60
    ensures p.days == 0 <==> s < SecondsPerDay
  {
    Parts(s / SecondsPerDay, (s / SecondsPerHour) % 24, (s / SecondsPerMinute) % 60)
  }

  /** The formatter drops exactly the seconds past the last whole minute. */
  lemma DecomposeReconstructs(s: nat)
    ensures Seconds(Decompose(s)) <= s < Seconds(Decompose(s)) + SecondsPerMinute
    ensures Seconds(Decompose(s)) == s / SecondsPerMinute * SecondsPerMinute
  {
    // Mixed radix over the whole minutes m and whole hours h: the three
    // divisions of the source are h / 24, h % 24 and m % 60.
    var m := s / SecondsPerMinute;
    var h := m / 60;
    assert s / SecondsPerHour == h && s / SecondsPerDay == h / 24;
    assert m == (h / 24 * 24 + h % 24) * 60 + m % 60;
  }

  /** The `"<h>h <m>m"` part both output forms end with. */
  function Clock(h: nat, m: nat): (r: string)
    ensures 'd' !in r
    ensures |r| > 0 && r[|r| - 1] == 'm'
  {
    var dh := Decimal.Format(h);
    var dm := Decimal.Format(m);
    assert forall i :: 0 <= i < |dh| ==> dh[i] != 'd';
    assert forall i :: 0 <= i < |dm| ==> dm[i] != 'd';
    dh + "h " + dm + "m"
  }

  /** `"<h>h <m>m"` under one day, `"<d>d <h>h <m>m"` from one day on. */
  function FormatTimedelta(s: nat): (r: string)
    ensures 'd' in r <==> s >= SecondsPerDay
    ensures |r| > 0 && r[|r| - 1] == 'm'
  {
    var p := Decompose(s);
    if p.days == 0 then
      Clock(p.hours, p.minutes)
    else
      var r := Decimal.Format(p.days) + "d " + Clock(p.hours, p.minutes);
      assert r[|Decimal.Format(p.days)|] == 'd';
      r
  }

  /** Strips `lit` from the front of `s`. */
  function Expect(s: string, lit: string): (r: Option<string>)
    ensures r.Some? <==> lit <= s
    ensures r.Some? ==> s == lit + r.value
  {
    if lit <= s then Some(s[|lit|..]) else None
  }

  /** Reads back `"<m>m"`, the whole of `s`. */
  function ParseMinutes(s: string): Option<nat> {
    var minutes :- Decimal.Parse(s);
    var end :- Expect(minutes.1, "m");
    if end == [] then Some(minutes.0) else None
  }

  /** Reads back `"<h>h <m>m"`, the whole of `s`. */
  function ParseClock(s: string): Option<(nat, nat)> {
    var hours :- Decimal.Parse(s);
    var afterHours :- Expect(hours.1, "h ");
    var minutes :- ParseMinutes(afterHours);
    Some((hours.0, minutes))
  }

  /** Reads back the text `FormatTimedelta` writes. */
  function ParseTimedelta(s: string): Option<Parts> {
    var first :- Decimal.Parse(s);
    if "d " <= first.1 then
      var clock :- ParseClock(first.1[2..]);
      Some(Parts(first.0, clock.0, clock.1))
    else
      var clock :- ParseClock(s);
      Some(Parts(0, clock.0, clock.1))
  }

  lemma ParseMinutesFormat(m: nat)
    ensures ParseMinutes(Decimal.Format(m) + "m") == Some(m)
  {
    Decimal.ParseFormat(m, "m");
    assert Expect("m", "m") == Some([]);
  }

  lemma ParseHoursPrefix(h: nat, rest: string)
    requires ParseMinutes(rest).Some?
    ensures ParseClock(Decimal.Format(h) + "h " + rest) == Some((h, ParseMinutes(rest).value))
  {
    var tail := "h " + rest;
    assert Decimal.Format(h) + "h " + rest == Decimal.Format(h) + tail;
    Decimal.ParseFormat(h, tail);
    assert "h " <= tail && tail[2..] == rest;
  }

  lemma ParseClockFormat(h: nat, m: nat)
    ensures ParseClock(Clock(h, m)) == Some((h, m))
  {
    var dm := Decimal.Format(m);
    assert Clock(h, m) == Decimal.Format(h) + "h " + (dm + "m");
    ParseMinutesFormat(m);
    ParseHoursPrefix(h, dm + "m");
  }

  lemma ParseShortForm(h: nat, m: nat)
    ensures ParseTimedelta(Clock(h, m)) == Some(Parts(0, h, m))
  {
    var dh := Decimal.Format(h);
    var dm := Decimal.Format(m);
    var tail := "h " + dm + "m";
    assert dh + "h " + dm + "m" == dh + tail;
    Decimal.ParseFormat(h, tail);
    assert !("d " <= tail);
    ParseClockFormat(h, m);
  }

  lemma ParseLongForm(d: nat, clock: string)
    requires ParseClock(clock).Some?
    ensures ParseTimedelta(Decimal.Format(d) + "d " + clock)
      == Some(Parts(d, ParseClock(clock).value.0, ParseClock(clock).value.1))
  {
    var tail := "d " + clock;
    assert Decimal.Format(d) + "d " + clock == Decimal.Format(d) + tail;
    Decimal.ParseFormat(d, tail);
    assert tail[2..] == clock;
  }

  /** The rendered text determines the days, hours and minutes it was made from. */
  lemma ParseFormatTimedelta(s: nat)
    ensures ParseTimedelta(FormatTimedelta(s)) == Some(Decompose(s))
  {
    var p := Decompose(s);
    if p.days == 0 {
      ParseShortForm(p.hours, p.minutes);
    } else {
      ParseClockFormat(p.hours, p.minutes);
      ParseLongForm(p.days, Clock(p.hours, p.minutes));
    }
  }

  /** Durations with the same whole minutes decompose alike. */
  lemma SameMinutesSameParts(a: nat, b: nat)
    requires a / SecondsPerMinute == b / SecondsPerMinute
    ensures Decompose(a) == Decompose(b)
  {
    var m := a / SecondsPerMinute;
    assert a / SecondsPerHour == m / 60 == b / SecondsPerHour;
    assert a / SecondsPerDay == m / (SecondsPerDay / SecondsPerMinute) == b / SecondsPerDay;
  }

  /** Two durations format alike exactly when they have the same number of
      whole minutes. */
  lemma FormatTimedeltaInjective(a: nat, b: nat)
    ensures FormatTimedelta(a) == FormatTimedelta(b) <==> a / SecondsPerMinute == b / SecondsPerMinute
  {
    if FormatTimedelta(a) == FormatTimedelta(b) {
      ParseFormatTimedelta(a);
      ParseFormatTimedelta(b);
      assert Decompose(a) == Decompose(b);
      DecomposeReconstructs(a);
      DecomposeReconstructs(b);
    }
    if a / SecondsPerMinute == b / SecondsPerMinute {
      SameMinutesSameParts(a, b);
    }
  }

  /** The concrete delta of four days and 123 minutes. */
  lemma FourDaysAndTwoHours()
    ensures FormatTimedelta(4 * SecondsPerDay + 123 * SecondsPerMinute) == "4d 2h 3m"
  {
  }
}
